=== FILE: README.md ===
# Download controller, editor rules and element classification of the WRT/Ginebra browser chrome

This project models, in Dafny, three self-contained pieces of logic of the
browser chrome. It then proves properties of the model.

1. **The download controller** (`DownloadController` / `DownloadControllerPrivate`).
   It sits between the native download manager and client code.
   - Error-code table (`DownloadErrors`): numeric `QNetworkReply::NetworkError` codes map to
     `"QNetworkReply::<Name>"` tokens, with `"???"` for unlisted codes.
   - File-name hint (`DownloadNaming`): a `data:` URL gives `type.subtype`. Every other
     scheme gives no hint.
   - Event adapter (`DownloadEvents`): each lifecycle event of the download manager is
     resolved against the manager's registry of transfers. It is re-emitted as at most
     one notification and reported handled or unhandled.
   - Facade (`DownloadController`): the three `startDownload` overloads, written as the
     ordered trace of calls they make. This includes the degraded mode with no download
     manager linked in. The module also covers the page wiring of `handlePage` and the
     proxy rule of the constructor.
2. **Editor rules** (`EditorWidget`).
   - the progress throttle of `GProgressEditor::setProgress`;
   - the length limit and input-method hints of `GTextLineItem`;
   - the key filter of `GLineEditor`;
   - the "just focused" machine of `TextEditItem`.
3. **Element classification** (`BrowserUtils`): `wrtBrowserUtils::ElementType` and
   `getTypeFromElement` as pure classifiers.

Modelling choices:
- The download manager's registry is a `map<int, Transfer>`.
- Emitted signals are a returned `seq<Notification>`.
- The calls the facade makes are a `seq<Action>`. `Apply` interprets that trace on the
  registry.
- The result of each signal/slot `connect` is a boolean input.
- A URL is given as its scheme and path.
- The numeric values of Qt's enumerations come from Qt 4's headers, which are not part
  of this model. These are `QNetworkReply::NetworkError`, the key codes,
  `QEvent::KeyPress` and `Qt::ImhNoPredictiveText`.
- The tag-name constants of `wrtBrowserUtils` live in a header that is not part of this
  model. They are taken as the lower-case names `link`, `input`, `a`, `area`,
  `textarea`, `select`, `button`, `form`, `li`, `ol`, `dl`, `object`, `embed`, `html`
  and `img`.

The error string attached to paused, cancelled, failed, network-loss and error
notifications is never empty: `downloadErrorToString` never returns a null pointer, so
a transfer without an error carries `"QNetworkReply::NoError"`.

## Model

| member | source | states |
|---|---|---|
| DownloadErrors.ErrorToString | browsercore/appfw/Api/Managers/downloadcontroller.cpp:39-91 | the token is never empty, and it is either the `"???"` placeholder or a string starting with the `QNetworkReply::` prefix |
| DownloadErrors.FromCodeRoundTrip | browsercore/appfw/Api/Managers/downloadcontroller.cpp:41-87 | the switch recognises the numeric code of each of the 23 listed errors as that same error |
| DownloadErrors.ErrorToStringListed | browsercore/appfw/Api/Managers/downloadcontroller.cpp:42-87 | each listed code maps to `"QNetworkReply::"` followed by its own enumerator's name, never to the placeholder |
| DownloadErrors.ErrorToStringUnlisted | browsercore/appfw/Api/Managers/downloadcontroller.cpp:88-89 | every code that no listed error carries maps to `"???"` |
| DownloadErrors.ErrorTokensDistinct | browsercore/appfw/Api/Managers/downloadcontroller.cpp:39-91 | one code, one token: a listed code's token differs from the token of every other code, listed or not |
| DownloadNaming.SectionOfJoin | browsercore/appfw/Api/Managers/downloadcontroller.cpp:182-183 | `QString::section(sep, n, n)` picks fields: for any separator-free fields joined by the separator, section n is field n, and the empty string past the last field |
| DownloadNaming.FileNameHint | browsercore/appfw/Api/Managers/downloadcontroller.cpp:165-195 | the hint is non-empty exactly for the `data` scheme, so it is empty for http, https and every other scheme; a data hint contains a `.` |
| DownloadNaming.DataHintRoundTrip | browsercore/appfw/Api/Managers/downloadcontroller.cpp:178-190 | a data path `type/subtype` followed by nothing or by `;`-parameters yields exactly `type.subtype` |
| DownloadNaming.PngDataUrlHint | browsercore/appfw/Api/Managers/downloadcontroller.cpp:179-189 | `data:image/png;base64,<anything>` yields `image.png` |
| DownloadNaming.HttpHasNoHint | browsercore/appfw/Api/Managers/downloadcontroller.cpp:169-172 | http and https URLs give no hint whatever their path |
| DownloadEvents.EventName | browsercore/appfw/Api/Managers/downloadcontroller.cpp:93-133 | an event name exists exactly for the 17 known kinds; manager-level names start with `DownloadManager:` and transfer-level names start with `Download:` |
| DownloadEvents.EventNameInjective | browsercore/appfw/Api/Managers/downloadcontroller.cpp:95-129 | the logged names tell the kinds apart: a known kind never shares its name with any other kind |
| DownloadEvents.HandleManagerEvent | browsercore/appfw/Api/Managers/downloadcontroller.cpp:249-276 | handled iff the kind is manager-level; at most one notification, emitted only for DownloadsCleared and reporting that kind; DownloadCreated and the server kinds emit nothing |
| DownloadEvents.HandleDownloadEvent | browsercore/appfw/Api/Managers/downloadcontroller.cpp:278-360 | an unknown identity gives unhandled and no notification; otherwise handled iff the kind is transfer-level; exactly one notification unless the kind is a passthrough; that notification reports the event's kind and names the transfer; it carries an error iff the kind is one of the five error kinds, and then the error is the mapped token of the transfer's last error |
| DownloadEvents.HandleEvent | browsercore/appfw/Api/Managers/downloadcontroller.cpp:362-395 | manager-level kinds go to the manager handler, transfer-level kinds to the transfer handler, and any other kind is unhandled with nothing emitted |
| DownloadEvents.HandledExactly | browsercore/appfw/Api/Managers/downloadcontroller.cpp:249-395 | an event is handled iff it is manager-level, or transfer-level with an identity the registry holds |
| DownloadEvents.NoDuplicateCreated | browsercore/appfw/Api/Managers/downloadcontroller.cpp:254-258 | the manager's DownloadCreated event is handled and produces no second downloadCreated |
| DownloadEvents.DeliverAtMostOnePerEvent | browsercore/appfw/Api/Managers/downloadcontroller.cpp:362-395 | over any stream of events, the adapter emits no more notifications than it receives events |
| DownloadEvents.DeliverReportsOnlyReceivedKinds | browsercore/appfw/Api/Managers/downloadcontroller.cpp:278-360 | every notification delivered for a stream reports the kind of some event in that stream |
| DownloadController.StartCreated | browsercore/appfw/Api/Managers/downloadcontroller.cpp:225-247 | the last three calls are downloadCreated, registerEventReceiver and start, in that order; before them the URL's hint is written to DlFileName once if it is non-empty and not at all otherwise (four calls or three); exactly one notification, downloadCreated |
| DownloadController.Setup | browsercore/appfw/Api/Managers/downloadcontroller.cpp:197-223 | each overload first has the manager create the transfer for its URL, by adopting the reply or from the URL's string, and then only writes attributes: two for the URL overload, none for the others |
| DownloadController.StartDownload | browsercore/appfw/Api/Managers/downloadcontroller.cpp:197-247 | with a manager: the first call creates the transfer, every call between it and the last three writes an attribute, and the last three are downloadCreated, registerEventReceiver and start, in that order, for every overload; the only notification is that downloadCreated; without a manager: nothing but a single unsupportedDownload carrying the overload's URL |
| DownloadController.SetupEffect | browsercore/appfw/Api/Managers/downloadcontroller.cpp:197-223 | after creation the registry holds the new transfer under the identity the manager chose (a record already held under that identity is replaced), and it is the manager's record for the URL; the URL overload has overwritten its destination path and file name with the caller's file info, and every other field is the manager's |
| DownloadController.StartCreatedEffect | browsercore/appfw/Api/Managers/downloadcontroller.cpp:231-246 | the file name is overwritten only by a non-empty hint; the transfer ends registered and started; the set of transfers and every other transfer are unchanged |
| DownloadController.StartDownloadEffect | browsercore/appfw/Api/Managers/downloadcontroller.cpp:197-247 | the new transfer is in the registry for the requested URL, registered and started; its file name is the hint when there is one (the last write wins), else the caller's, else the manager's; its destination is the caller's, else the manager's; its error is the one the manager recorded (e.g. on an adopted reply); no other transfer changes |
| DownloadController.RequestAndUrlAgree | browsercore/appfw/Api/Managers/downloadcontroller.cpp:197-223 | the request overload and the URL overload make the identical creation call, from the URL's string, while the reply overload's creation call differs; both overloads thus end with a transfer for the same URL |
| DownloadController.StartedTransferIsReported | browsercore/appfw/Api/Managers/downloadcontroller.cpp:278-308 | a Started event for a transfer the facade has just started is handled and reported as downloadStarted for that transfer |
| DownloadController.UnavailableCreatesNothing | browsercore/appfw/Api/Managers/downloadcontroller.cpp:448-467 | in degraded mode no overload changes the registry |
| DownloadController.Construct | browsercore/appfw/Api/Managers/downloadcontroller.cpp:147-158 | the manager is created for the client and gets the controller as its receiver first; setProxy is called iff a manager exists and the proxy type is not NoProxy, and then only with the proxy's host and port; nothing else is called (three calls or two) |
| DownloadController.HandlePage | browsercore/appfw/Api/Managers/downloadcontroller.cpp:471-489 | both connections are always attempted after forwarding is enabled; the result is true iff both connect; each signal whose connect succeeded stays subscribed |
| DownloadController.OnPageEvent | browsercore/appfw/Api/Managers/downloadcontroller.cpp:475-486 | a subscribed unsupported-content signal starts a download from the reply, a subscribed download request starts one from the request, and an unsubscribed signal does nothing |
| DownloadController.PartialWiringStillRoutes | browsercore/appfw/Api/Managers/downloadcontroller.cpp:471-489 | when only the first connect succeeds, handlePage reports failure yet unsupported content is still downloaded and announced |
| EditorWidget.SetProgress | ginebra2/EditorWidget.cpp:531-562 | the value stays put exactly on a repeat or on a small increase (from above 0, below 99, by less than 10); otherwise it becomes the request; the result never exceeds the request and lags it by less than 10; decreases, moves from 0 and requests of 99 or more always apply |
| EditorWidget.FeedProgressLag | ginebra2/EditorWidget.cpp:531-562 | after any series of requests, the shown value is at most the latest request and lags it by less than 10; a latest request of 99 or more is shown exactly |
| EditorWidget.NewTextLine | ginebra2/EditorWidget.cpp:43-59 | a new line item has no limit, empty text and hints containing ImhNoPredictiveText |
| EditorWidget.SetText | ginebra2/EditorWidget.cpp:68-76 | the stored text is a prefix of the argument, of length min(length, limit) under a positive limit, and the whole argument otherwise; limit and hints are kept |
| EditorWidget.SetMaxTextLength | ginebra2/EditorWidget.cpp:78-90 | the limit becomes the argument; moving from no limit to a positive one truncates the text to the new limit; when the old limit was positive, or the new one is not, the text is unchanged, so shrinking a positive limit does not truncate; `contentsChange` stays connected iff the limit is positive |
| EditorWidget.DeletePreviousChar | ginebra2/EditorWidget.cpp:97-100 | with no selection and the cursor past the start, exactly the character before the cursor is removed; with no selection and the cursor at the start, nothing changes; with a selection, exactly the selected span is removed; the text never grows |
| EditorWidget.ContentsChange | ginebra2/EditorWidget.cpp:92-102 | nothing changes unless a positive limit is exceeded; then, with no selection and the cursor past the start, the text loses exactly the character before the cursor, with a selection it loses exactly the selected span, and with no selection and the cursor at the start nothing changes, so the text stays over the limit |
| EditorWidget.TypingAtLimitIsUndone | ginebra2/EditorWidget.cpp:92-102 | typing a character into a line exactly at its limit leaves the text as it was |
| EditorWidget.TypingKeepsLimit | ginebra2/EditorWidget.cpp:92-102 | typing into a line within its limit keeps it within the limit |
| EditorWidget.LimitKept | ginebra2/EditorWidget.cpp:68-102 | a line within its limit stays within it under any series of setText, setMaxTextLength, typing and hint calls, provided no call lowers a positive limit to a smaller positive one |
| EditorWidget.ShrinkingLimitKeepsLongText | ginebra2/EditorWidget.cpp:78-90 | lowering a positive limit from 3 to 2 leaves the text "abc" longer than the new limit |
| EditorWidget.SetInputMethodHints | ginebra2/EditorWidget.cpp:240-244 | the stored hints have ImhNoPredictiveText set and agree with the requested hints on every other bit; nothing else changes |
| EditorWidget.HintsKeepNoPredictiveText | ginebra2/EditorWidget.cpp:240-244 | once set, ImhNoPredictiveText stays set through any series of line-item operations |
| EditorWidget.EventFilter | ginebra2/EditorWidget.cpp:430-454 | `activated` is emitted iff the event is a Select, Return or Enter key press on the editor; the event is consumed iff it is one of those, or an Up or Down key press on the editor |
| EditorWidget.FocusChanged | ginebra2/EditorWidget.cpp:612-621 | focus-in sets the just-focused flag and makes no call; focus-out clears the flag, unselects and shifts to the left end |
| EditorWidget.Tapped | ginebra2/EditorWidget.cpp:599-610 | every tap clears the flag and makes at most one call; select-all happens iff the item was just focused, the tap hit text and nothing was selected; unselect happens iff the item was not just focused and the tap missed text; a tap never shifts the cursor |
| EditorWidget.SelectAllOncePerFocusIn | ginebra2/EditorWidget.cpp:599-621 | over any series of focus changes and taps, select-all happens at most once per focus-in, plus once if the item started just focused |
| BrowserUtils.ElementType | browsercore/appfw/Api/Common/wrtBrowserUtils.cpp:29-64 | a missing or null element classifies as EElementNone; an element is never classified as an image box |
| BrowserUtils.ElementTypeIsTableLookup | browsercore/appfw/Api/Common/wrtBrowserUtils.cpp:34-63 | the classification is a case-insensitive lookup in the table link/a to anchor, input, textarea, select, button, form, li/ol/dl to list box, object/embed to object box, and EElementNone for any other tag |
| BrowserUtils.KelvinLinkIsAnchor | browsercore/appfw/Api/Common/wrtBrowserUtils.cpp:37-39 | a tag `lin` followed by U+212A KELVIN SIGN compares equal to `link` under case folding and so classifies as an anchor |
| BrowserUtils.ElementTypeNeverArea | browsercore/appfw/Api/Common/wrtBrowserUtils.cpp:43-48 | the area test nested inside the A-tag branch is unreachable, so the result is never an area box |
| BrowserUtils.TypeFromElement | browsercore/appfw/Api/Common/wrtBrowserUtils.cpp:66-100 | an `html` local name gives EElementNone; an empty tag name gives an anchor iff the hit test found a link, else none; the result is an area box iff the tag is AREA with an href; it is an image box iff the tag is IMG and no link was found; AREA without an href and IMG inside a link both give an anchor |
| BrowserUtils.TypeFromElementDelegates | browsercore/appfw/Api/Common/wrtBrowserUtils.cpp:95-97 | any other element is classified by the same table lookup as `ElementType` |

## Left out

- Logging: the `qDebug` lines and the log output of `debugDownloadEvent` are not modelled. Only the name each event would be logged under (`EventName`) is.
- Destructors are not modelled. They delete the download manager, disconnect `contentsChange` and restore the drag distance. None of this decides anything the model states.
- Network I/O, the download manager's internals and `QNetworkReply` contents are not modelled. A transfer is a registry entry, and its identity and its initial record (file name, destination, error) are supplied by the caller as the manager's choice. The manager is assumed to record exactly the URL it is asked for: the URL's string, or the adopted reply's URL. The manager is also assumed to hand out an identity no live transfer holds; a reused identity would replace that record. The lifecycle phase machine is advisory, since the manager is authoritative, so it is not modelled. Only the `started` and `receiverRegistered` flags the facade sets are recorded.
- URLs are not parsed. `QUrl` is reduced to the scheme and path it reports. `QFileInfo` is reduced to the `absolutePath()` and `fileName()` strings it returns, because computing them depends on the file system.
- The DownloadProxy handle is the transfer's identity. The raw numeric values of DEventType are in a header that is not part of this model, so unknown event types are the `Unrecognised` variant.
- `DownloadEvents.Deliver` uses one registry for a whole stream of events. The manager may change its registry between events, and that change is not modelled.
- Case-insensitive comparison folds `A`-`Z`, U+212A KELVIN SIGN (to `k`) and U+017F LONG S (to `s`), the only characters whose simple Unicode case folding is an ASCII letter. Every other character is kept unfolded. Because every tag constant is lower-case ASCII, this gives the same answer as Qt's simple case folding, applied per UTF-16 code unit, for every comparison the classifier makes; comparing two arbitrary non-ASCII strings is not modelled.
- From `ginebra2/EditorWidget.cpp`, the following are not modelled because they are floating-point geometry, painting or toolkit plumbing: `makeVisible`, `tappedOnText`, `selectionRectF`, `cursorX`, `resizeEvent`, the paint methods, the mouse and key handlers, `focusInEvent` / `focusOutEvent` (which decide when `focusChanged` is emitted) and `setTextOptions`. Whether a tap hit text and whether there is a selection are inputs to the tap machine.
- EditorWidget.SetText: lengths count Unicode scalar values, while QString counts UTF-16 code units; text outside the Basic Multilingual Plane is therefore limited and truncated differently (with a limit of 2, Qt keeps only the surrogate pair of "\U{1F600}a", the model keeps both characters).
- EditorWidget.SetMaxTextLength: the truncation on a new positive limit counts scalar values, not UTF-16 code units, as for `SetText`.
- EditorWidget.ContentsChange: the limit test counts scalar values, not UTF-16 code units, as for `SetText`.
- EditorWidget.DeletePreviousChar: removes one scalar value; the case of a cursor between the two halves of a surrogate pair, and QTextCursor's removal of a whole pair, are not modelled because the model's characters are never surrogates.
- BrowserUtils.TypeFromElement: `getTypeFromElement` takes the address of the temporary returned by `htRes.element()`, so its null test always passes and the pointer dangles afterwards; the model reads the element's value and has no null case there.
- Typing (`EditorWidget.Type`) stands in for the document edit that makes QTextDocument emit `contentsChange`. The document's own editing is not otherwise modelled.
- ginebra/chromewidget.cpp, browsercore/appfw/Common/FilmstripFlow.h, ginebra2/ContentToolbarChromeItem.h, utilities/standaloneallocator/newallocator_hook.cpp and utilities/downloadmanager/inc/downloadfactory.h are not part of this model. They hold GUI rendering, declarations without logic, a platform allocator hook and a factory whose implementation is not available.

=== FILE: browser_utils.dfy ===
/**
  Element-type classification of `wrtBrowserUtils`: the kind of web element a
  tag name denotes (`ElementType`), and the kind of element a hit test landed
  on (`getTypeFromElement`).
 */
module BrowserUtils {
  import opened Wrappers

  /** The members of wrtBrowserDefs::BrowserElementType the classifiers produce. */
  datatype ElementKind =
    | EElementNone
    | EElementAnchor
    | EElementInputBox
    | EElementAreaBox
    | EElementTextAreaBox
    | EElementSelectBox
    | EElementButton
    | EElementForm
    | EElementListBox
    | EElementObjectBox
    | EElementImageBox

  /**
    A QWebElement: the null element, or an element with its local name, tag
    name, and `href` attribute (None when the attribute is absent, which makes
    QWebElement::attribute return a null string).
   */
  datatype WebElement = NullElement | Element(localName: string, tagName: string, href: Option<string>)
  {
    /** QWebElement::localName and tagName are empty for the null element. */
    function LocalName(): string
    {
      if NullElement? then [] else localName
    }

    function TagName(): string
    {
      if NullElement? then [] else tagName
    }
  }

  /** A hit-test result: the element hit, and whether its link element is null. */
  datatype HitTestResult = HitTestResult(element: WebElement, linkIsNull: bool)

  // The tag and attribute constants of the browser definitions.
  const LinkTag: string := "link"
  const InputTag: string := "input"
  const ATag: string := "a"
  const AreaTag: string := "area"
  const TextAreaTag: string := "textarea"
  const SelectTag: string := "select"
  const ButtonTag: string := "button"
  const FormTag: string := "form"
  const LiTag: string := "li"
  const OlTag: string := "ol"
  const DlTag: string := "dl"
  const ObjectTag: string := "object"
  const EmbedTag: string := "embed"
  const HtmlTag: string := "html"
  const ImageTag: string := "img"

  /** U+212A KELVIN SIGN, which simple case folding maps to `k`. */
  const KelvinSign: char := '\U{212A}'

  /** U+017F LATIN SMALL LETTER LONG S, which simple case folding maps to `s`. */
  const LongS: char := '\U{017F}'

  /**
    Simple case folding of one character, as far as it decides a comparison with
    an ASCII lower-case constant: `A`-`Z` fold to `a`-`z`, and the only two other
    characters whose folding is ASCII fold to `k` and `s`. Any other character is
    kept: its folding is not an ASCII letter, so it matches no constant either way.
   */
  function FoldChar(c: char): (f: char)
    ensures 'a' <= f <= 'z' <==> 'a' <= c <= 'z' || 'A' <= c <= 'Z' || c == KelvinSign || c == LongS
  {
    if 'A' <= c <= 'Z' then (c as int + 32) as char
    else if c == KelvinSign then 'k'
    else if c == LongS then 's'
    else c
  }

  function Fold(s: string): (r: string)
    ensures |r| == |s|
    ensures forall i | 0 <= i < |s| :: r[i] == FoldChar(s[i])
  {
    seq(|s|, i requires 0 <= i < |s| => FoldChar(s[i]))
  }

  /** `a.compare(b, Qt::CaseInsensitive) == 0`. */
  predicate SameIgnoringCase(a: string, b: string)
  {
    Fold(a) == Fold(b)
  }

  /** Matching a tag constant (all lower case) is comparing the folded tag with it. */
  lemma MatchesConstant(tag: string, c: string)
    requires forall i | 0 <= i < |c| :: 'a' <= c[i] <= 'z'
    ensures SameIgnoringCase(tag, c) <==> Fold(tag) == c
  {
  }

  /**
    `wrtBrowserUtils::ElementType`, with its tests in source order: a later
    match overrides an earlier one. A missing or null element is EElementNone.
   */
  function ElementType(node: Option<WebElement>): (kind: ElementKind)
    ensures node.None? || node.value.NullElement? ==> kind == EElementNone
    ensures kind != EElementImageBox
  {
    if node.None? || node.value.NullElement? then EElementNone
    else
      var tag := node.value.tagName;
      var k0 := if SameIgnoringCase(tag, LinkTag) then EElementAnchor else EElementNone;
      var k1 :=
        if SameIgnoringCase(tag, InputTag) then EElementInputBox
        else if SameIgnoringCase(tag, ATag) then
          (if SameIgnoringCase(tag, AreaTag) then EElementAreaBox else EElementAnchor)
        else k0;
      var k2 := if SameIgnoringCase(tag, TextAreaTag) then EElementTextAreaBox else k1;
      var k3 := if SameIgnoringCase(tag, SelectTag) then EElementSelectBox else k2;
      var k4 := if SameIgnoringCase(tag, ButtonTag) then EElementButton else k3;
      var k5 := if SameIgnoringCase(tag, FormTag) then EElementForm else k4;
      if SameIgnoringCase(tag, LiTag) || SameIgnoringCase(tag, OlTag) || SameIgnoringCase(tag, DlTag) then EElementListBox
      else if SameIgnoringCase(tag, ObjectTag) || SameIgnoringCase(tag, EmbedTag) then EElementObjectBox
      else k5
  }

  /** The reference table: each lower-case tag name and the kind it denotes. */
  const TagKinds: map<string, ElementKind> := map[
    "link" := EElementAnchor,
    "a" := EElementAnchor,
    "input" := EElementInputBox,
    "textarea" := EElementTextAreaBox,
    "select" := EElementSelectBox,
    "button" := EElementButton,
    "form" := EElementForm,
    "li" := EElementListBox,
    "ol" := EElementListBox,
    "dl" := EElementListBox,
    "object" := EElementObjectBox,
    "embed" := EElementObjectBox
  ]

  /**
    `ElementType` is a case-insensitive table lookup: an element classifies as
    the kind the table gives its folded tag name, and as EElementNone when the
    table does not list it.
   */
  lemma ElementTypeIsTableLookup(localName: string, tagName: string, href: Option<string>)
    ensures ElementType(Some(Element(localName, tagName, href)))
         == if Fold(tagName) in TagKinds then TagKinds[Fold(tagName)] else EElementNone
  {
    MatchesConstant(tagName, LinkTag);
    MatchesConstant(tagName, InputTag);
    MatchesConstant(tagName, ATag);
    MatchesConstant(tagName, AreaTag);
    MatchesConstant(tagName, TextAreaTag);
    MatchesConstant(tagName, SelectTag);
    MatchesConstant(tagName, ButtonTag);
    MatchesConstant(tagName, FormTag);
    MatchesConstant(tagName, LiTag);
    MatchesConstant(tagName, OlTag);
    MatchesConstant(tagName, DlTag);
    MatchesConstant(tagName, ObjectTag);
    MatchesConstant(tagName, EmbedTag);
  }

  /** A `link` tag spelt with the Kelvin sign still classifies as an anchor, as under Qt's folding. */
  lemma KelvinLinkIsAnchor(localName: string, href: Option<string>)
    ensures ElementType(Some(Element(localName, ['l', 'i', 'n', KelvinSign], href))) == EElementAnchor
  {
    var tag := ['l', 'i', 'n', KelvinSign];
    assert Fold(tag) == LinkTag;
    ElementTypeIsTableLookup(localName, tag, href);
  }

  /**
    The AREA test inside the A branch can never succeed: no tag name matches
    both "a" and "area", so `ElementType` never answers EElementAreaBox.
   */
  lemma ElementTypeNeverArea(node: Option<WebElement>)
    ensures ElementType(node) != EElementAreaBox
  {
  }

  /**
    `wrtBrowserUtils::getTypeFromElement`: the document element is EElementNone;
    an element without a tag name is an anchor exactly when the hit test found a
    link; AREA is an area box when it has an href and an anchor otherwise; an
    image is an anchor when it sits in a link and an image box otherwise; every
    other element is classified by `ElementType`.
   */
  function TypeFromElement(hit: HitTestResult): (kind: ElementKind)
    ensures hit.element.LocalName() == HtmlTag ==> kind == EElementNone
    ensures (hit.element.LocalName() != HtmlTag && hit.element.TagName() == [])
              ==> (kind == EElementAnchor <==> !hit.linkIsNull) && (kind == EElementAnchor || kind == EElementNone)
    ensures kind == EElementAreaBox <==>
              && hit.element.LocalName() != HtmlTag && hit.element.TagName() != []
              && SameIgnoringCase(hit.element.TagName(), AreaTag) && hit.element.href.Some?
    ensures kind == EElementImageBox <==>
              && hit.element.LocalName() != HtmlTag && hit.element.TagName() != []
              && !SameIgnoringCase(hit.element.TagName(), AreaTag)
              && SameIgnoringCase(hit.element.TagName(), ImageTag) && hit.linkIsNull
    ensures (&& hit.element.LocalName() != HtmlTag && hit.element.TagName() != []
             && SameIgnoringCase(hit.element.TagName(), AreaTag) && hit.element.href.None?)
              ==> kind == EElementAnchor
    ensures (&& hit.element.LocalName() != HtmlTag && hit.element.TagName() != []
             && !SameIgnoringCase(hit.element.TagName(), AreaTag)
             && SameIgnoringCase(hit.element.TagName(), ImageTag) && !hit.linkIsNull)
              ==> kind == EElementAnchor
  {
    var node := hit.element;
    if node.LocalName() == HtmlTag then EElementNone
    else if node.TagName() == [] then
      (if !hit.linkIsNull then EElementAnchor else EElementNone)
    else if SameIgnoringCase(node.TagName(), AreaTag) then
      (if node.href.Some? then EElementAreaBox else EElementAnchor)
    else if SameIgnoringCase(node.TagName(), ImageTag) then
      (if !hit.linkIsNull then EElementAnchor else EElementImageBox)
    else
      ElementTypeNeverArea(Some(node));
      ElementType(Some(node))
  }

  /** Every other tag is classified through the table, case-insensitively. */
  lemma TypeFromElementDelegates(hit: HitTestResult)
    requires hit.element.Element?
    requires hit.element.localName != HtmlTag && hit.element.tagName != []
    requires Fold(hit.element.tagName) != AreaTag && Fold(hit.element.tagName) != ImageTag
    ensures TypeFromElement(hit)
         == if Fold(hit.element.tagName) in TagKinds then TagKinds[Fold(hit.element.tagName)] else EElementNone
  {
    MatchesConstant(hit.element.tagName, AreaTag);
    MatchesConstant(hit.element.tagName, ImageTag);
    ElementTypeIsTableLookup(hit.element.localName, hit.element.tagName, hit.element.href);
  }
}

=== FILE: download_controller.dfy ===
/**
  The facade of the download controller: the start-download operations, with the
  sequence of calls each makes on the download manager and on the new transfer,
  the degraded mode used when no download manager is linked in, the wiring of a
  web page's download signals (`handlePage`), and the construction rule for the
  proxy.
 */
module DownloadController {
  import opened DownloadNaming
  import opened DownloadEvents

  /** The two attributes of a transfer the facade writes. */
  datatype Attribute = DlDestPath | DlFileName

  /** How the download manager is asked to create a transfer. */
  datatype Origin = FromUrlString | FromReply

  /** The destination a caller supplies: QFileInfo's absolutePath() and fileName(). */
  datatype FileInfo = FileInfo(absolutePath: string, fileName: string)

  /**
    One call the facade makes, in the order it makes them. A creation carries
    the manager's answer: the identity it chose and the record it set up for
    the URL (file name, destination and error are the manager's to choose).
   */
  datatype Action =
    | CreateDownload(id: int, url: Url, origin: Origin, initial: Transfer)
    | SetAttribute(id: int, attr: Attribute, value: string)
    | Emit(n: Notification)
    | RegisterEventReceiver(id: int)
    | Start(id: int)

  /** The three public start-download overloads. */
  datatype StartRequest =
    | StartFromUrl(url: Url, info: FileInfo)
    | StartFromReply(replyUrl: Url)
    | StartFromRequest(requestUrl: Url)
  {
    /** The URL the overload downloads: the argument, the reply's or the request's. */
    function Target(): Url
    {
      match this
      case StartFromUrl(u, _) => u
      case StartFromReply(u) => u
      case StartFromRequest(u) => u
    }
  }

  /** Whether a download manager is linked in (USE_DOWNLOAD_MANAGER) or not. */
  datatype Backend = Active | Unavailable

  /** The notifications among the calls of a trace, in order. */
  function Emitted(trace: seq<Action>): seq<Notification>
    decreases |trace|
  {
    if trace == [] then []
    else (if trace[0].Emit? then [trace[0].n] else []) + Emitted(trace[1..])
  }

  lemma {:induction false} EmittedAppend(t1: seq<Action>, t2: seq<Action>)
    ensures Emitted(t1 + t2) == Emitted(t1) + Emitted(t2)
  {
    if t1 == [] {
      assert t1 + t2 == t2;
    } else {
      var head := if t1[0].Emit? then [t1[0].n] else [];
      assert (t1 + t2)[0] == t1[0];
      assert (t1 + t2)[1..] == t1[1..] + t2;
      assert Emitted(t1 + t2) == head + Emitted(t1[1..] + t2);
      EmittedAppend(t1[1..], t2);
      assert head + (Emitted(t1[1..]) + Emitted(t2)) == (head + Emitted(t1[1..])) + Emitted(t2);
    }
  }

  lemma EmittedOfStartTail(id: int)
    ensures Emitted([Emit(NotifyCreated(id))]) == [NotifyCreated(id)]
    ensures Emitted([Emit(NotifyCreated(id)), RegisterEventReceiver(id), Start(id)]) == [NotifyCreated(id)]
  {
    EmittedThree(Emit(NotifyCreated(id)), RegisterEventReceiver(id), Start(id));
    EmittedOne(Emit(NotifyCreated(id)));
    EmittedOne(RegisterEventReceiver(id));
    EmittedOne(Start(id));
  }

  lemma EmittedOne(a: Action)
    ensures Emitted([a]) == if a.Emit? then [a.n] else []
  {
  }

  lemma EmittedThree(a: Action, b: Action, c: Action)
    ensures Emitted([a, b, c]) == Emitted([a]) + Emitted([b]) + Emitted([c])
  {
    assert [a, b, c] == [a] + [b] + [c];
    EmittedAppend([a] + [b], [c]);
    EmittedAppend([a], [b]);
  }

  /**
    The private `startDownload(download, url)`: a non-empty file-name hint is
    written to DlFileName first; then downloadCreated is emitted, the controller
    registers as the transfer's event receiver, and the transfer is started,
    in that order and as the last three calls.
   */
  function StartCreated(id: int, url: Url): (trace: seq<Action>)
    ensures |trace| == if FileNameHint(url) != [] then 4 else 3
    ensures trace[|trace| - 3..] == [Emit(NotifyCreated(id)), RegisterEventReceiver(id), Start(id)]
    ensures forall i | 0 <= i < |trace| - 3 :: trace[i] == SetAttribute(id, DlFileName, FileNameHint(url))
    ensures (exists i | 0 <= i < |trace| :: trace[i].SetAttribute?) <==> FileNameHint(url) != []
    ensures forall i | 0 <= i < |trace| :: !trace[i].CreateDownload?
    ensures Emitted(trace) == [NotifyCreated(id)]
  {
    var hint := FileNameHint(url);
    var naming := if |hint| > 0 then [SetAttribute(id, DlFileName, hint)] else [];
    var tail := [Emit(NotifyCreated(id)), RegisterEventReceiver(id), Start(id)];
    var trace := naming + tail;
    assert trace[..|trace| - 3] == naming;
    EmittedAppend(naming, tail);
    EmittedOfStartTail(id);
    assert naming != [] ==> naming[1..] == [] && trace[0].SetAttribute?;
    trace
  }

  /** The calls an overload makes before the private `startDownload`: creation and, for a URL, the destination. */
  function Setup(id: int, initial: Transfer, request: StartRequest): (setup: seq<Action>)
    ensures |setup| == if request.StartFromUrl? then 3 else 1
    ensures setup[0] == CreateDownload(id, request.Target(), if request.StartFromReply? then FromReply else FromUrlString, initial)
    ensures forall i | 1 <= i < |setup| :: setup[i].SetAttribute?
    ensures Emitted(setup) == []
  {
    match request
    case StartFromUrl(url, info) =>
      var setup := [ CreateDownload(id, url, FromUrlString, initial)
                   , SetAttribute(id, DlDestPath, info.absolutePath)
                   , SetAttribute(id, DlFileName, info.fileName) ];
      EmittedThree(setup[0], setup[1], setup[2]);
      EmittedOne(setup[0]);
      EmittedOne(setup[1]);
      EmittedOne(setup[2]);
      setup
    case StartFromReply(url) =>
      EmittedOne(CreateDownload(id, url, FromReply, initial));
      [CreateDownload(id, url, FromReply, initial)]
    case StartFromRequest(url) =>
      EmittedOne(CreateDownload(id, url, FromUrlString, initial));
      [CreateDownload(id, url, FromUrlString, initial)]
  }

  /**
    `DownloadController::startDownload`, all three overloads. With a download
    manager, the manager creates the transfer (from the URL's string, or by
    adopting the reply), the URL overload writes the caller's destination path
    and file name, and the transfer is started as by `StartCreated`. Without
    one, the only effect is a single unsupportedDownload carrying the URL.
    The identity and initial record of the new transfer are the manager's.
   */
  function StartDownload(backend: Backend, id: int, initial: Transfer, request: StartRequest): (trace: seq<Action>)
    ensures backend.Unavailable? ==> Emitted(trace) == [NotifyUnsupported(request.Target())]
    ensures backend.Unavailable? ==> forall i | 0 <= i < |trace| :: trace[i].Emit?
    ensures backend.Active? ==> Emitted(trace) == [NotifyCreated(id)]
    ensures backend.Active? ==> |trace| > 0 && trace[0].CreateDownload? && trace[0].id == id
    ensures backend.Active? ==> forall i | 1 <= i < |trace| :: !trace[i].CreateDownload?
    ensures backend.Active? ==>
              && |trace| >= 4
              && trace[|trace| - 3..] == [Emit(NotifyCreated(id)), RegisterEventReceiver(id), Start(id)]
              && forall i | 0 < i < |trace| - 3 :: trace[i].SetAttribute?
  {
    match backend
    case Unavailable =>
      var trace := [Emit(NotifyUnsupported(request.Target()))];
      assert trace[1..] == [];
      trace
    case Active =>
      var setup := Setup(id, initial, request);
      var rest := StartCreated(id, request.Target());
      EmittedAppend(setup, rest);
      setup + rest
  }

  /** The effect of one call on the download manager's registry. */
  function Step(registry: Registry, a: Action): Registry
  {
    match a
    case CreateDownload(id, url, _, initial) =>
      registry[id := initial.(url := url)]
    case SetAttribute(id, attr, value) =>
      if id !in registry then registry
      else if attr == DlDestPath then registry[id := registry[id].(destPath := value)]
      else registry[id := registry[id].(fileName := value)]
    case Emit(_) => registry
    case RegisterEventReceiver(id) =>
      if id in registry then registry[id := registry[id].(receiverRegistered := true)] else registry
    case Start(id) =>
      if id in registry then registry[id := registry[id].(started := true)] else registry
  }

  /** The registry after a trace of calls, performed in order. */
  function Apply(registry: Registry, trace: seq<Action>): Registry
    decreases |trace|
  {
    if trace == [] then registry else Apply(Step(registry, trace[0]), trace[1..])
  }

  lemma {:induction false} ApplyAppend(registry: Registry, t1: seq<Action>, t2: seq<Action>)
    ensures Apply(registry, t1 + t2) == Apply(Apply(registry, t1), t2)
    decreases |t1|
  {
    if t1 != [] {
      assert (t1 + t2)[1..] == t1[1..] + t2;
      ApplyAppend(Step(registry, t1[0]), t1[1..], t2);
    } else {
      assert t1 + t2 == t2;
    }
  }

  lemma ApplyThree(registry: Registry, a: Action, b: Action, c: Action)
    ensures Apply(registry, [a, b, c]) == Step(Step(Step(registry, a), b), c)
  {
    assert [a, b, c] == [a] + [b] + [c];
    ApplyAppend(registry, [a] + [b], [c]);
    ApplyAppend(registry, [a], [b]);
    ApplyOne(registry, a);
    ApplyOne(Step(registry, a), b);
    ApplyOne(Step(Step(registry, a), b), c);
  }

  lemma ApplyOne(registry: Registry, a: Action)
    ensures Apply(registry, [a]) == Step(registry, a)
  {
  }

  /**
    The file name a transfer ends up with: the URL's hint if any, else what the
    URL overload wrote, else the one the manager chose.
   */
  function ExpectedFileName(initial: Transfer, request: StartRequest): string
  {
    var hint := FileNameHint(request.Target());
    if hint != [] then hint
    else match request
      case StartFromUrl(_, info) => info.fileName
      case _ => initial.fileName
  }

  /**
    What a start with a download manager leaves in the registry: the new
    transfer is there, for the requested URL, registered and started; its file
    name is the URL's hint when there is one (the last write wins over the
    caller's file name), else the caller's, else the manager's; its destination
    directory is the caller's, else the manager's; its error is the one the
    manager recorded; and no other transfer changes.
   */
  lemma {:induction false} StartDownloadEffect(registry: Registry, id: int, initial: Transfer, request: StartRequest)
    ensures var after := Apply(registry, StartDownload(Active, id, initial, request));
      && after.Keys == registry.Keys + {id}
      && after[id].url == request.Target()
      && after[id].receiverRegistered && after[id].started
      && after[id].fileName == ExpectedFileName(initial, request)
      && after[id].destPath == (if request.StartFromUrl? then request.info.absolutePath else initial.destPath)
      && after[id].lastError == initial.lastError
      && forall other | other in registry && other != id :: after[other] == registry[other]
  {
    var setup := Setup(id, initial, request);
    var rest := StartCreated(id, request.Target());
    assert StartDownload(Active, id, initial, request) == setup + rest;
    ApplyAppend(registry, setup, rest);
    SetupEffect(registry, id, initial, request);
    StartCreatedEffect(Apply(registry, setup), id, request.Target());
  }

  /** The private `startDownload` on a transfer the registry holds. */
  lemma StartCreatedEffect(registry: Registry, id: int, url: Url)
    requires id in registry
    ensures var after := Apply(registry, StartCreated(id, url));
      var hint := FileNameHint(url);
      && after.Keys == registry.Keys
      && after[id] == registry[id].(fileName := if hint != [] then hint else registry[id].fileName,
                                    receiverRegistered := true, started := true)
      && forall other | other in registry && other != id :: after[other] == registry[other]
  {
    var hint := FileNameHint(url);
    var naming := if |hint| > 0 then [SetAttribute(id, DlFileName, hint)] else [];
    var tail := [Emit(NotifyCreated(id)), RegisterEventReceiver(id), Start(id)];
    assert StartCreated(id, url) == naming + tail;
    ApplyAppend(registry, naming, tail);
    if naming != [] {
      ApplyOne(registry, naming[0]);
    }
    var r2 := Apply(registry, naming);
    ApplyThree(r2, tail[0], tail[1], tail[2]);
  }

  /**
    The created transfer, before the private `startDownload` runs: the
    manager's record for the URL, with the URL overload's destination written.
   */
  lemma SetupEffect(registry: Registry, id: int, initial: Transfer, request: StartRequest)
    ensures var after := Apply(registry, Setup(id, initial, request));
      && after.Keys == registry.Keys + {id}
      && after[id] == (match request
                       case StartFromUrl(url, info) => initial.(url := url, destPath := info.absolutePath, fileName := info.fileName)
                       case _ => initial.(url := request.Target()))
      && forall other | other in registry && other != id :: after[other] == registry[other]
  {
    var setup := Setup(id, initial, request);
    if request.StartFromUrl? {
      ApplyThree(registry, setup[0], setup[1], setup[2]);
    } else {
      ApplyOne(registry, setup[0]);
    }
  }

  /**
    The request overload and the URL overload ask the manager for the transfer
    with the same call, a creation from the URL's string, so they fetch the same
    URL; the reply overload's creation is a different call (it adopts the reply).
   */
  lemma RequestAndUrlAgree(registry: Registry, id: int, initial: Transfer, url: Url, info: FileInfo)
    ensures StartDownload(Active, id, initial, StartFromRequest(url))[0]
         == StartDownload(Active, id, initial, StartFromUrl(url, info))[0]
         == CreateDownload(id, url, FromUrlString, initial)
    ensures StartDownload(Active, id, initial, StartFromReply(url))[0]
         != StartDownload(Active, id, initial, StartFromRequest(url))[0]
    ensures var fromRequest := Apply(registry, StartDownload(Active, id, initial, StartFromRequest(url)));
      var fromUrl := Apply(registry, StartDownload(Active, id, initial, StartFromUrl(url, info)));
      id in fromRequest && id in fromUrl && fromRequest[id].url == fromUrl[id].url == url
  {
    StartDownloadEffect(registry, id, initial, StartFromRequest(url));
    StartDownloadEffect(registry, id, initial, StartFromUrl(url, info));
  }

  /**
    Every transfer the facade starts can be observed: a later Started event for
    it is handled and reported, naming that transfer.
   */
  lemma StartedTransferIsReported(registry: Registry, id: int, initial: Transfer, request: StartRequest)
    ensures var after := Apply(registry, StartDownload(Active, id, initial, request));
      HandleEvent(after, LifecycleEvent(Started, id)) == Outcome(true, [NotifyStarted(id)])
  {
    StartDownloadEffect(registry, id, initial, request);
  }

  /** Degraded mode never creates a transfer: the registry is untouched. */
  lemma UnavailableCreatesNothing(registry: Registry, id: int, initial: Transfer, request: StartRequest)
    ensures Apply(registry, StartDownload(Unavailable, id, initial, request)) == registry
  {
  }

  /** QNetworkProxy::ProxyType. */
  datatype ProxyType = DefaultProxy | Socks5Proxy | NoProxy | HttpProxy | HttpCachingProxy | FtpCachingProxy

  type Port = p: int | 0 <= p < 0x1_0000

  datatype Proxy = Proxy(kind: ProxyType, hostName: string, port: Port)

  /** The calls the controller's constructor makes on the download manager. */
  datatype SetupAction = CreateManager(client: string) | RegisterManagerReceiver | SetProxy(host: string, port: Port)

  /**
    The constructor of DownloadControllerPrivate: the manager is created for the
    client and the controller registers as its event receiver; the proxy's host
    and port are applied exactly when its type is not NoProxy. Without a download
    manager the constructor does nothing.
   */
  function Construct(backend: Backend, client: string, proxy: Proxy): (trace: seq<SetupAction>)
    ensures (exists a | a in trace :: a.SetProxy?) <==> backend.Active? && proxy.kind != NoProxy
    ensures forall a | a in trace && a.SetProxy? :: a == SetProxy(proxy.hostName, proxy.port)
    ensures backend.Active? ==> |trace| >= 2 && trace[0] == CreateManager(client) && trace[1] == RegisterManagerReceiver
    ensures backend.Active? ==> |trace| == if proxy.kind != NoProxy then 3 else 2
    ensures backend.Unavailable? ==> trace == []
  {
    match backend
    case Unavailable => []
    case Active =>
      var proxying := if proxy.kind != NoProxy then [SetProxy(proxy.hostName, proxy.port)] else [];
      var trace := [CreateManager(client), RegisterManagerReceiver] + proxying;
      assert proxying != [] ==> trace[2] in trace;
      trace
  }

  /** The two signals of a web page the controller subscribes to. */
  datatype PageSignal = UnsupportedContent | DownloadRequested

  /** What `handlePage` does to the page, in order. */
  datatype PageAction = ForwardUnsupportedContent | Connect(signal: PageSignal)

  /** The result of `handlePage`: the returned flag, the calls made, and the live subscriptions. */
  datatype Wiring = Wiring(succeeded: bool, trace: seq<PageAction>, subscribed: set<PageSignal>)

  /**
    `handlePage`: the page is told to forward unsupported content, and both
    subscriptions are always attempted; the call succeeds exactly when both
    connect, and whichever did connect stays connected. The outcome of each
    `connect` is an input.
   */
  function HandlePage(unsupportedConnects: bool, requestConnects: bool): (w: Wiring)
    ensures w.trace == [ForwardUnsupportedContent, Connect(UnsupportedContent), Connect(DownloadRequested)]
    ensures w.succeeded <==> unsupportedConnects && requestConnects
    ensures UnsupportedContent in w.subscribed <==> unsupportedConnects
    ensures DownloadRequested in w.subscribed <==> requestConnects
  {
    var subscribed := (if unsupportedConnects then {UnsupportedContent} else {})
                    + (if requestConnects then {DownloadRequested} else {});
    Wiring(unsupportedConnects && requestConnects,
           [ForwardUnsupportedContent, Connect(UnsupportedContent), Connect(DownloadRequested)],
           subscribed)
  }

  /** A signal raised by a wired page: content it cannot show, or a save-link/save-image request. */
  datatype PageEvent = UnsupportedContentEvent(reply: Url) | DownloadRequestedEvent(request: Url)

  /**
    The slot a page event reaches: unsupported content goes to the reply
    overload and a download request to the request overload, if that signal is
    subscribed; otherwise nothing happens.
   */
  function OnPageEvent(subscribed: set<PageSignal>, backend: Backend, id: int, initial: Transfer, ev: PageEvent)
    : (trace: seq<Action>)
    ensures (ev.UnsupportedContentEvent? && UnsupportedContent in subscribed)
              ==> trace == StartDownload(backend, id, initial, StartFromReply(ev.reply))
    ensures (ev.DownloadRequestedEvent? && DownloadRequested in subscribed)
              ==> trace == StartDownload(backend, id, initial, StartFromRequest(ev.request))
    ensures ev.UnsupportedContentEvent? && UnsupportedContent !in subscribed ==> trace == []
    ensures ev.DownloadRequestedEvent? && DownloadRequested !in subscribed ==> trace == []
  {
    match ev
    case UnsupportedContentEvent(reply) =>
      if UnsupportedContent in subscribed then StartDownload(backend, id, initial, StartFromReply(reply)) else []
    case DownloadRequestedEvent(request) =>
      if DownloadRequested in subscribed then StartDownload(backend, id, initial, StartFromRequest(request)) else []
  }

  /**
    Partial wiring is still wiring: when only the unsupported-content subscription
    connects, `handlePage` reports failure, yet unsupported content is still
    downloaded and announced.
   */
  lemma PartialWiringStillRoutes(id: int, initial: Transfer, reply: Url)
    ensures var w := HandlePage(true, false);
      && !w.succeeded
      && Emitted(OnPageEvent(w.subscribed, Active, id, initial, UnsupportedContentEvent(reply))) == [NotifyCreated(id)]
  {
  }
}

=== FILE: download_errors.dfy ===
/**
  The vocabulary the download controller uses for network errors: the numeric
  codes of QNetworkReply::NetworkError are turned into fixed string tokens
  ("QNetworkReply::<Name>"), with "???" for every code the table does not list.
 */
module DownloadErrors {
  import opened Wrappers

  /** The members of QNetworkReply::NetworkError that the controller's table names. */
  datatype NetworkError =
    | NoError
    | ConnectionRefusedError
    | RemoteHostClosedError
    | HostNotFoundError
    | TimeoutError
    | OperationCanceledError
    | SslHandshakeFailedError
    | ProxyConnectionRefusedError
    | ProxyConnectionClosedError
    | ProxyNotFoundError
    | ProxyTimeoutError
    | ProxyAuthenticationRequiredError
    | ContentAccessDenied
    | ContentOperationNotPermittedError
    | ContentNotFoundError
    | AuthenticationRequiredError
    | ContentReSendError
    | ProtocolUnknownError
    | ProtocolInvalidOperationError
    | UnknownNetworkError
    | UnknownProxyError
    | UnknownContentError
    | ProtocolFailure

  /** The integer value of each error in QNetworkReply::NetworkError (Qt 4). */
  function Code(e: NetworkError): int
  {
    match e
    case NoError => 0
    case ConnectionRefusedError => 1
    case RemoteHostClosedError => 2
    case HostNotFoundError => 3
    case TimeoutError => 4
    case OperationCanceledError => 5
    case SslHandshakeFailedError => 6
    case ProxyConnectionRefusedError => 101
    case ProxyConnectionClosedError => 102
    case ProxyNotFoundError => 103
    case ProxyTimeoutError => 104
    case ProxyAuthenticationRequiredError => 105
    case ContentAccessDenied => 201
    case ContentOperationNotPermittedError => 202
    case ContentNotFoundError => 203
    case AuthenticationRequiredError => 204
    case ContentReSendError => 205
    case ProtocolUnknownError => 301
    case ProtocolInvalidOperationError => 302
    case UnknownNetworkError => 99
    case UnknownProxyError => 199
    case UnknownContentError => 299
    case ProtocolFailure => 399
  }

  /** The enumerator's name as written in Qt's header. */
  function Name(e: NetworkError): string
  {
    match e
    case NoError => "NoError"
    case ConnectionRefusedError => "ConnectionRefusedError"
    case RemoteHostClosedError => "RemoteHostClosedError"
    case HostNotFoundError => "HostNotFoundError"
    case TimeoutError => "TimeoutError"
    case OperationCanceledError => "OperationCanceledError"
    case SslHandshakeFailedError => "SslHandshakeFailedError"
    case ProxyConnectionRefusedError => "ProxyConnectionRefusedError"
    case ProxyConnectionClosedError => "ProxyConnectionClosedError"
    case ProxyNotFoundError => "ProxyNotFoundError"
    case ProxyTimeoutError => "ProxyTimeoutError"
    case ProxyAuthenticationRequiredError => "ProxyAuthenticationRequiredError"
    case ContentAccessDenied => "ContentAccessDenied"
    case ContentOperationNotPermittedError => "ContentOperationNotPermittedError"
    case ContentNotFoundError => "ContentNotFoundError"
    case AuthenticationRequiredError => "AuthenticationRequiredError"
    case ContentReSendError => "ContentReSendError"
    case ProtocolUnknownError => "ProtocolUnknownError"
    case ProtocolInvalidOperationError => "ProtocolInvalidOperationError"
    case UnknownNetworkError => "UnknownNetworkError"
    case UnknownProxyError => "UnknownProxyError"
    case UnknownContentError => "UnknownContentError"
    case ProtocolFailure => "ProtocolFailure"
  }

  const Prefix: string := "QNetworkReply::"
  const UnknownToken: string := "???"

  /**
    The `switch` of the controller's `downloadErrorToString`: the enumerator a raw
    code denotes, or None when the code falls to the `default:` arm.
   */
  function FromCode(code: int): (r: Option<NetworkError>)
    ensures r.Some? ==> Code(r.value) == code
  {
    if code == 0 then Some(NoError)
    else if code == 1 then Some(ConnectionRefusedError)
    else if code == 2 then Some(RemoteHostClosedError)
    else if code == 3 then Some(HostNotFoundError)
    else if code == 4 then Some(TimeoutError)
    else if code == 5 then Some(OperationCanceledError)
    else if code == 6 then Some(SslHandshakeFailedError)
    else if code == 101 then Some(ProxyConnectionRefusedError)
    else if code == 102 then Some(ProxyConnectionClosedError)
    else if code == 103 then Some(ProxyNotFoundError)
    else if code == 104 then Some(ProxyTimeoutError)
    else if code == 105 then Some(ProxyAuthenticationRequiredError)
    else if code == 201 then Some(ContentAccessDenied)
    else if code == 202 then Some(ContentOperationNotPermittedError)
    else if code == 203 then Some(ContentNotFoundError)
    else if code == 204 then Some(AuthenticationRequiredError)
    else if code == 205 then Some(ContentReSendError)
    else if code == 301 then Some(ProtocolUnknownError)
    else if code == 302 then Some(ProtocolInvalidOperationError)
    else if code == 99 then Some(UnknownNetworkError)
    else if code == 199 then Some(UnknownProxyError)
    else if code == 299 then Some(UnknownContentError)
    else if code == 399 then Some(ProtocolFailure)
    else None
  }

  /**
    The controller's `downloadErrorToString`: the token "QNetworkReply::<Name>"
    for a listed code, "???" otherwise. It never yields an empty string (the C++
    function never returns a null pointer), and a token that is not the
    placeholder always starts with the "QNetworkReply::" prefix.
   */
  function ErrorToString(code: int): (s: string)
    ensures s != []
    ensures s != UnknownToken <==> |s| > |Prefix| && s[..|Prefix|] == Prefix
  {
    match FromCode(code)
    case Some(e) => Prefix + Name(e)
    case None => UnknownToken
  }

  /** Every listed code is recognised by the switch as its own enumerator. */
  lemma FromCodeRoundTrip(e: NetworkError)
    ensures FromCode(Code(e)) == Some(e)
  {
  }

  /** Each of the listed codes maps to the token spelling its own enumerator's name. */
  lemma ErrorToStringListed(e: NetworkError)
    ensures ErrorToString(Code(e)) == Prefix + Name(e)
    ensures ErrorToString(Code(e)) != UnknownToken
  {
    FromCodeRoundTrip(e);
  }

  /** Every code that no enumerator of the table carries maps to the placeholder. */
  lemma ErrorToStringUnlisted(code: int)
    requires forall e: NetworkError :: Code(e) != code
    ensures ErrorToString(code) == UnknownToken
  {
  }

  /**
    The table is one code to one token: two listed codes with the same token
    are the same code, and no listed code shares its token with an unlisted one.
   */
  lemma ErrorTokensDistinct(c1: int, c2: int)
    requires c1 != c2
    requires FromCode(c1).Some?
    ensures ErrorToString(c1) != ErrorToString(c2)
  {
  }
}

=== FILE: download_events.dfy ===
/**
  The event adapter of the download controller (`DownloadControllerPrivate::event`
  and its two handlers): lifecycle events of the download manager are resolved
  against the manager's registry of transfers and re-emitted as at most one
  notification each.
 */
module DownloadEvents {
  import opened Wrappers
  import opened DownloadErrors
  import opened DownloadNaming

  /** The kinds of DEventType the controller knows, and any other raw event type. */
  datatype EventKind =
    // manager-level
    | DownloadCreated
    | DownloadsCleared
    | ConnectedToServer
    | DisconnectedFromServer
    | ServerError
    // transfer-level
    | Started
    | HeaderReceived
    | Progress
    | Completed
    | Paused
    | Cancelled
    | Failed
    | DescriptorUpdated
    | NetworkLoss
    | Error
    | OMADownloadDescriptorReady
    | WMDRMLicenseAcquiring
    // any event type outside the enumeration
    | Unrecognised(code: int)
  {
    predicate IsManagerKind()
    {
      DownloadCreated? || DownloadsCleared? || ConnectedToServer? || DisconnectedFromServer? || ServerError?
    }

    predicate IsTransferKind()
    {
      Started? || HeaderReceived? || Progress? || Completed? || Paused? || Cancelled? || Failed?
      || DescriptorUpdated? || NetworkLoss? || Error? || OMADownloadDescriptorReady? || WMDRMLicenseAcquiring?
    }

    /** Transfer-level kinds that carry the transfer's error token in their notification. */
    predicate CarriesError()
    {
      Paused? || Cancelled? || Failed? || NetworkLoss? || Error?
    }

    /** Transfer-level kinds that are acknowledged but produce no notification yet. */
    predicate IsPassthrough()
    {
      DescriptorUpdated? || OMADownloadDescriptorReady? || WMDRMLicenseAcquiring?
    }
  }

  /** One lifecycle event as delivered by the download manager. */
  datatype LifecycleEvent = LifecycleEvent(kind: EventKind, id: int)

  /** One transfer as the download manager records it; the adapter only reads it. */
  datatype Transfer = Transfer(
    url: Url,
    destPath: string,
    fileName: string,
    lastError: int,
    receiverRegistered: bool,
    started: bool)

  /** The download manager's transfers by identity (`findDownload`). */
  type Registry = map<int, Transfer>

  /**
    The signals of DownloadController. A transfer is referred to by its identity
    (the DownloadProxy handle wraps the transfer the identity resolves to).
   */
  datatype Notification =
    | NotifyCreated(download: int)
    | NotifyCleared
    | NotifyStarted(download: int)
    | NotifyHeaderReceived(download: int)
    | NotifyProgress(download: int)
    | NotifyFinished(download: int)
    | NotifyPaused(download: int, error: string)
    | NotifyCancelled(download: int, error: string)
    | NotifyFailed(download: int, error: string)
    | NotifyNetworkLoss(download: int, error: string)
    | NotifyError(download: int, error: string)
    | NotifyUnsupported(url: Url)

  /** The lifecycle event kind a notification reports, if it reports one. */
  function ReportedKind(n: Notification): Option<EventKind>
  {
    match n
    case NotifyCleared => Some(DownloadsCleared)
    case NotifyStarted(_) => Some(Started)
    case NotifyHeaderReceived(_) => Some(HeaderReceived)
    case NotifyProgress(_) => Some(Progress)
    case NotifyFinished(_) => Some(Completed)
    case NotifyPaused(_, _) => Some(Paused)
    case NotifyCancelled(_, _) => Some(Cancelled)
    case NotifyFailed(_, _) => Some(Failed)
    case NotifyNetworkLoss(_, _) => Some(NetworkLoss)
    case NotifyError(_, _) => Some(Error)
    case NotifyCreated(_) => None
    case NotifyUnsupported(_) => None
  }

  /** What the handling of one event produced: the handled flag and the signals emitted. */
  datatype Outcome = Outcome(handled: bool, emitted: seq<Notification>)

  /**
    `downloadEventToString`: the name logged for an event, "DownloadManager:..."
    for the manager-level kinds, "Download:..." for the transfer-level kinds, and
    nothing (a null pointer, which suppresses the log line) for any other type.
   */
  function EventName(kind: EventKind): (name: Option<string>)
    ensures name.None? <==> kind.Unrecognised?
    ensures kind.IsManagerKind() ==> name.Some? && |name.value| > 16 && name.value[..16] == "DownloadManager:"
    ensures kind.IsTransferKind() ==> name.Some? && |name.value| > 9 && name.value[..9] == "Download:"
  {
    match kind
    case DownloadCreated => Some("DownloadManager:" + "DownloadCreated")
    case DownloadsCleared => Some("DownloadManager:" + "DownloadsCleared")
    case ConnectedToServer => Some("DownloadManager:" + "ConnectedToServer")
    case DisconnectedFromServer => Some("DownloadManager:" + "DisconnectedFromServer")
    case ServerError => Some("DownloadManager:" + "ServerError")
    case Started => Some("Download:" + "Started")
    case HeaderReceived => Some("Download:" + "HeaderReceived")
    case Progress => Some("Download:" + "Progress")
    case Completed => Some("Download:" + "Completed")
    case Paused => Some("Download:" + "Paused")
    case Cancelled => Some("Download:" + "Cancelled")
    case Failed => Some("Download:" + "Failed")
    case DescriptorUpdated => Some("Download:" + "DescriptorUpdated")
    case NetworkLoss => Some("Download:" + "NetworkLoss")
    case Error => Some("Download:" + "Error")
    case OMADownloadDescriptorReady => Some("Download:" + "OMADownloadDescriptorReady")
    case WMDRMLicenseAcquiring => Some("Download:" + "WMDRMLicenseAcquiring")
    case Unrecognised(_) => None
  }

  /**
    The logged names tell the kinds apart: two different kinds, the first of
    them known, are never logged under the same name.
   */
  lemma EventNameInjective(k1: EventKind, k2: EventKind)
    requires k1 != k2 && !k1.Unrecognised?
    ensures EventName(k1) != EventName(k2)
  {
  }

  /**
    `handleDownloadManagerEvent`: DownloadCreated is acknowledged silently (the
    facade already emitted downloadCreated when it started the transfer),
    DownloadsCleared is re-emitted as downloadsCleared, the three server kinds are
    acknowledged silently, and any other kind is reported unhandled.
   */
  function HandleManagerEvent(kind: EventKind): (o: Outcome)
    ensures o.handled <==> kind.IsManagerKind()
    ensures |o.emitted| <= 1
    ensures o.emitted != [] <==> kind == DownloadsCleared
    ensures forall n | n in o.emitted :: ReportedKind(n) == Some(kind)
  {
    match kind
    case DownloadCreated => Outcome(true, [])
    case DownloadsCleared => Outcome(true, [NotifyCleared])
    case ConnectedToServer => Outcome(true, [])
    case DisconnectedFromServer => Outcome(true, [])
    case ServerError => Outcome(true, [])
    case _ => Outcome(false, [])
  }

  /** The error carried by a notification, if it carries one. */
  function CarriedError(n: Notification): Option<string>
  {
    match n
    case NotifyPaused(_, e) => Some(e)
    case NotifyCancelled(_, e) => Some(e)
    case NotifyFailed(_, e) => Some(e)
    case NotifyNetworkLoss(_, e) => Some(e)
    case NotifyError(_, e) => Some(e)
    case _ => None
  }

  /** The transfer a notification refers to, if it refers to one. */
  function Subject(n: Notification): Option<int>
  {
    match n
    case NotifyCleared => None
    case NotifyUnsupported(_) => None
    case _ => Some(n.download)
  }

  /**
    `handleDownloadEvent`: an identity the registry does not hold is reported
    unhandled with nothing emitted. Otherwise the transfer's last error is mapped
    to its token, and the notification matching the kind is emitted, naming the
    transfer and, for the five error-carrying kinds, the token. The three
    passthrough kinds are acknowledged silently; any other kind is unhandled.
   */
  function HandleDownloadEvent(registry: Registry, kind: EventKind, id: int): (o: Outcome)
    ensures id !in registry ==> o == Outcome(false, [])
    ensures id in registry ==> (o.handled <==> kind.IsTransferKind())
    ensures |o.emitted| <= 1
    ensures o.emitted != [] <==> id in registry && kind.IsTransferKind() && !kind.IsPassthrough()
    ensures forall n | n in o.emitted ::
              && ReportedKind(n) == Some(kind)
              && Subject(n) == Some(id)
              && (CarriedError(n).Some? <==> kind.CarriesError())
              && (id in registry && kind.CarriesError() ==> CarriedError(n) == Some(ErrorToString(registry[id].lastError)))
  {
    if id !in registry then Outcome(false, [])
    else
      var error := ErrorToString(registry[id].lastError);
      match kind
      case Started => Outcome(true, [NotifyStarted(id)])
      case HeaderReceived => Outcome(true, [NotifyHeaderReceived(id)])
      case Progress => Outcome(true, [NotifyProgress(id)])
      case Completed => Outcome(true, [NotifyFinished(id)])
      case Paused => Outcome(true, [NotifyPaused(id, error)])
      case Cancelled => Outcome(true, [NotifyCancelled(id, error)])
      case Failed => Outcome(true, [NotifyFailed(id, error)])
      case DescriptorUpdated => Outcome(true, [])
      case NetworkLoss => Outcome(true, [NotifyNetworkLoss(id, error)])
      case Error => Outcome(true, [NotifyError(id, error)])
      case OMADownloadDescriptorReady => Outcome(true, [])
      case WMDRMLicenseAcquiring => Outcome(true, [])
      case _ => Outcome(false, [])
  }

  /**
    `event`: the five manager-level kinds go to the manager handler, the twelve
    transfer-level kinds to the transfer handler, and anything else is unhandled.
   */
  function HandleEvent(registry: Registry, ev: LifecycleEvent): (o: Outcome)
    ensures ev.kind.IsManagerKind() ==> o == HandleManagerEvent(ev.kind)
    ensures ev.kind.IsTransferKind() ==> o == HandleDownloadEvent(registry, ev.kind, ev.id)
    ensures ev.kind.Unrecognised? ==> o == Outcome(false, [])
  {
    if ev.kind.IsManagerKind() then HandleManagerEvent(ev.kind)
    else if ev.kind.IsTransferKind() then HandleDownloadEvent(registry, ev.kind, ev.id)
    else Outcome(false, [])
  }

  /** The notifications the adapter emits for a stream of events, delivered one at a time. */
  function Deliver(registry: Registry, events: seq<LifecycleEvent>): seq<Notification>
  {
    if events == [] then []
    else HandleEvent(registry, events[0]).emitted + Deliver(registry, events[1..])
  }

  /**
    One event in, at most one notification out: the adapter never emits more
    notifications than it receives events.
   */
  lemma {:induction false} DeliverAtMostOnePerEvent(registry: Registry, events: seq<LifecycleEvent>)
    ensures |Deliver(registry, events)| <= |events|
  {
    if events != [] {
      DeliverAtMostOnePerEvent(registry, events[1..]);
    }
  }

  /** Every notification delivered for a stream of events reports the kind of one of them. */
  lemma {:induction false} DeliverReportsOnlyReceivedKinds(registry: Registry, events: seq<LifecycleEvent>, n: Notification)
    requires n in Deliver(registry, events)
    ensures exists ev | ev in events :: ReportedKind(n) == Some(ev.kind)
  {
    var head := HandleEvent(registry, events[0]).emitted;
    if n in head {
      assert events[0] in events;
    } else {
      DeliverReportsOnlyReceivedKinds(registry, events[1..], n);
      var ev :| ev in events[1..] && ReportedKind(n) == Some(ev.kind);
      assert ev in events;
    }
  }

  /**
    The adapter handles an event exactly when it is a manager-level kind, or a
    transfer-level kind whose identity the registry holds.
   */
  lemma HandledExactly(registry: Registry, ev: LifecycleEvent)
    ensures HandleEvent(registry, ev).handled <==>
              ev.kind.IsManagerKind() || (ev.kind.IsTransferKind() && ev.id in registry)
  {
  }

  /** A DownloadCreated event from the manager never produces a second downloadCreated. */
  lemma NoDuplicateCreated(registry: Registry, ev: LifecycleEvent)
    requires ev.kind == DownloadCreated
    ensures HandleEvent(registry, ev) == Outcome(true, [])
  {
  }
}

=== FILE: download_naming.dfy ===
/**
  The destination-naming policy of the download controller (`downloadFileName`):
  a file-name hint synthesised from a URL's scheme and path, and the part of
  QString::section it relies on.
 */
module DownloadNaming {

  /** A URL as the controller looks at it: the scheme and the path that QUrl reports. */
  datatype Url = Url(scheme: string, path: string)

  /** The text of `s` before the first `sep`; all of `s` when there is none. */
  function FirstField(s: string, sep: char): (r: string)
    ensures |r| <= |s| && r == s[..|r|]
    ensures sep !in r
    ensures |r| < |s| ==> s[|r|] == sep
  {
    if s == [] then []
    else if s[0] == sep then []
    else [s[0]] + FirstField(s[1..], sep)
  }

  /** The text of `s` after its first `sep`; requires that there is one (the first field stops short of the end). */
  function AfterFirst(s: string, sep: char): (r: string)
    requires |FirstField(s, sep)| < |s|
    ensures s == FirstField(s, sep) + [sep] + r
  {
    var n := |FirstField(s, sep)|;
    assert s == s[..n] + [sep] + s[n + 1..];
    s[n + 1..]
  }

  /**
    QString::section(sep, n, n) with the default flags: the n-th field (counting
    from 0) of `s` cut at every `sep`, empty fields included, and the empty string
    when `s` has fewer than n + 1 fields.
   */
  function Section(s: string, sep: char, n: nat): (r: string)
    ensures sep !in r
    decreases n
  {
    if n == 0 then FirstField(s, sep)
    else if |FirstField(s, sep)| < |s| then Section(AfterFirst(s, sep), sep, n - 1)
    else []
  }

  /**
    `downloadFileName`: no hint for http and https (the download manager names
    the file), `type.subtype` read off the media type of a `data:` URL, and no
    hint for any other scheme.
   */
  function FileNameHint(url: Url): (hint: string)
    ensures hint != [] <==> url.scheme == "data"
    ensures url.scheme == "data" ==> '.' in hint
  {
    if url.scheme == "http" || url.scheme == "https" then []
    else if url.scheme == "data" then
      var mediaType := Section(url.path, '/', 0);
      var subtype := Section(Section(url.path, '/', 1), ';', 0);
      assert (mediaType + "." + subtype)[|mediaType|] == '.';
      mediaType + "." + subtype
    else []
  }

  /** Splitting at the first separator gives back the text before it. */
  lemma {:induction false} FirstFieldOfJoin(a: string, sep: char, b: string)
    requires sep !in a
    ensures FirstField(a + [sep] + b, sep) == a
  {
    if a == [] {
      assert (a + [sep] + b)[0] == sep;
    } else {
      assert (a + [sep] + b)[1..] == a[1..] + [sep] + b;
      FirstFieldOfJoin(a[1..], sep, b);
      assert [a[0]] + a[1..] == a;
    }
  }

  /** With no separator in `a`, the field after `a` is the first field of what follows. */
  lemma SecondSectionOfJoin(a: string, sep: char, b: string)
    requires sep !in a
    ensures Section(a + [sep] + b, sep, 0) == a
    ensures Section(a + [sep] + b, sep, 1) == FirstField(b, sep)
  {
    var s := a + [sep] + b;
    FirstFieldOfJoin(a, sep, b);
    assert s[|a|] == sep;
    var rest := AfterFirst(s, sep);
    assert s == a + [sep] + rest;
    assert rest == s[|a| + 1..] == b;
  }

  /** The fields joined by `sep`, as `QStringList::join` would: a string has at least one field. */
  function Join(fields: seq<string>, sep: char): string
    requires fields != []
    decreases |fields|
  {
    if |fields| == 1 then fields[0] else fields[0] + [sep] + Join(fields[1..], sep)
  }

  /** A string without the separator is its own first field. */
  lemma FirstFieldWhole(s: string, sep: char)
    requires sep !in s
    ensures FirstField(s, sep) == s
  {
  }

  /** Past a separator-free first field, the sections of the rest are renumbered from 0. */
  lemma SectionPastFirst(s: string, a: string, sep: char, b: string, n: nat)
    requires s == a + [sep] + b && sep !in a && n > 0
    ensures Section(s, sep, n) == Section(b, sep, n - 1)
  {
    FirstFieldOfJoin(a, sep, b);
    assert s[|a|] == sep;
    var after := AfterFirst(s, sep);
    assert s == a + [sep] + after;
    assert after == s[|a| + 1..] == b;
  }

  /** A separator-free string has one field: itself. */
  lemma SectionOfWhole(s: string, sep: char, n: nat)
    requires sep !in s
    ensures Section(s, sep, n) == if n == 0 then s else []
  {
    FirstFieldWhole(s, sep);
  }

  /** The fields after the first, as `Join` sees them. */
  lemma JoinTail(fields: seq<string>, sep: char)
    requires |fields| > 1
    ensures Join(fields, sep) == fields[0] + [sep] + Join(fields[1..], sep)
  {
  }

  /**
    `Section` picks fields: for separator-free fields, section n of their join
    is field n, and the empty string past the last field.
   */
  lemma {:induction false} SectionOfJoin(fields: seq<string>, sep: char, n: nat)
    requires fields != []
    requires forall i | 0 <= i < |fields| :: sep !in fields[i]
    ensures Section(Join(fields, sep), sep, n) == if n < |fields| then fields[n] else []
    decreases n
  {
    assert sep !in fields[0];
    if |fields| > 1 && n > 0 {
      TailSeparatorFree(fields, sep);
      SectionOfJoin(fields[1..], sep, n - 1);
      SectionOfJoinLater(fields, sep, n);
    } else {
      SectionOfJoinBase(fields, sep, n);
    }
  }

  /** The cases that need no induction: a single field, or section 0. */
  lemma SectionOfJoinBase(fields: seq<string>, sep: char, n: nat)
    requires fields != [] && sep !in fields[0]
    requires |fields| == 1 || n == 0
    ensures Section(Join(fields, sep), sep, n) == if n < |fields| then fields[n] else []
  {
    if |fields| == 1 {
      SectionOfJoinSingle(fields, sep, n);
    } else {
      SectionOfJoinFirst(fields, sep);
    }
  }

  /** One field: section 0 is the field itself, later sections are empty. */
  lemma SectionOfJoinSingle(fields: seq<string>, sep: char, n: nat)
    requires |fields| == 1 && sep !in fields[0]
    ensures Section(Join(fields, sep), sep, n) == if n < |fields| then fields[n] else []
  {
    assert Join(fields, sep) == fields[0];
    SectionOfWhole(fields[0], sep, n);
  }

  /** Several fields: section 0 is the first of them. */
  lemma SectionOfJoinFirst(fields: seq<string>, sep: char)
    requires |fields| > 1 && sep !in fields[0]
    ensures Section(Join(fields, sep), sep, 0) == fields[0]
  {
    JoinTail(fields, sep);
    FirstFieldOfJoin(fields[0], sep, Join(fields[1..], sep));
  }

  /** Several fields: section n is section n - 1 of the fields after the first. */
  lemma SectionOfJoinLater(fields: seq<string>, sep: char, n: nat)
    requires |fields| > 1 && n > 0 && sep !in fields[0]
    requires Section(Join(fields[1..], sep), sep, n - 1)
          == if n - 1 < |fields[1..]| then fields[1..][n - 1] else []
    ensures Section(Join(fields, sep), sep, n) == if n < |fields| then fields[n] else []
  {
    var s := Join(fields, sep);
    var rest := Join(fields[1..], sep);
    JoinTail(fields, sep);
    assert s == fields[0] + [sep] + rest;
    SectionPastFirst(s, fields[0], sep, rest, n);
    assert Section(s, sep, n) == Section(rest, sep, n - 1);
    var want := if n < |fields| then fields[n] else [];
    assert (if n - 1 < |fields[1..]| then fields[1..][n - 1] else []) == want;
    assert Section(s, sep, n) == want;
  }

  /** Dropping the first field keeps every field separator-free. */
  lemma TailSeparatorFree(fields: seq<string>, sep: char)
    requires fields != []
    requires forall i | 0 <= i < |fields| :: sep !in fields[i]
    ensures forall i | 0 <= i < |fields[1..]| :: sep !in fields[1..][i]
  {
    forall i | 0 <= i < |fields[1..]|
      ensures sep !in fields[1..][i]
    {
      assert fields[1..][i] == fields[i + 1];
    }
  }

  /**
    The data-URL round trip: a path `type/subtype` followed by nothing or by
    parameters starting at `;` yields the hint `type.subtype`.
   */
  lemma DataHintRoundTrip(mediaType: string, subtype: string, params: string)
    requires '/' !in mediaType && '/' !in subtype && ';' !in subtype
    requires params == [] || params[0] == ';'
    ensures FileNameHint(Url("data", mediaType + "/" + subtype + params)) == mediaType + "." + subtype
  {
    var path := mediaType + "/" + subtype + params;
    assert path == mediaType + ['/'] + (subtype + params);
    SecondSectionOfJoin(mediaType, '/', subtype + params);
    SubtypeCutAtParameters(subtype, params);
  }

  /** The subtype field, cut at `;`, drops the parameters. */
  lemma SubtypeCutAtParameters(subtype: string, params: string)
    requires '/' !in subtype && ';' !in subtype
    requires params == [] || params[0] == ';'
    ensures FirstField(FirstField(subtype + params, '/'), ';') == subtype
  {
    FirstFieldPrefix(subtype, params, '/');
    var tail := FirstField(params, '/');
    assert tail == [] || tail[0] == ';';
    FirstFieldPrefix(subtype, tail, ';');
    assert FirstField(tail, ';') == [];
    assert subtype + [] == subtype;
  }

  /** When `a` has no separator, the first field of `a + b` extends `a`. */
  lemma {:induction false} FirstFieldPrefix(a: string, b: string, sep: char)
    requires sep !in a
    ensures FirstField(a + b, sep) == a + FirstField(b, sep)
  {
    if a != [] {
      var s := a + b;
      assert s[0] == a[0] && a[0] != sep;
      assert s[1..] == a[1..] + b;
      assert FirstField(s, sep) == [a[0]] + FirstField(s[1..], sep);
      FirstFieldPrefix(a[1..], b, sep);
      assert [a[0]] + (a[1..] + FirstField(b, sep)) == a + FirstField(b, sep);
    } else {
      assert a + b == b;
    }
  }

  lemma HttpHasNoHint(path: string)
    ensures FileNameHint(Url("http", path)) == []
    ensures FileNameHint(Url("https", path)) == []
  {
  }

  /** The example from the controller's own comment: `data:image/png;base64,...`, whatever the payload. */
  lemma PngDataUrlHint(payload: string)
    ensures FileNameHint(Url("data", "image/png;base64," + payload)) == "image.png"
  {
    DataHintRoundTrip("image", "png", ";base64," + payload);
    PngLiterals(payload);
  }

  lemma PngLiterals(payload: string)
    ensures "image/png;base64," + payload == "image" + "/" + "png" + (";base64," + payload)
    ensures "image" + "." + "png" == "image.png"
  {
  }
}

=== FILE: editor_widget.dfy ===
/**
  The state rules hidden in the chrome's editor widgets: the progress throttle of
  GProgressEditor, the length limit and input-method hints of GTextLineItem, the
  key filter of GLineEditor, and the "just focused" machine of TextEditItem.
 */
module EditorWidget {

  // ---------------------------------------------------------------- progress

  /**
    The updates `setProgress` drops: a repeat of the current value, and a small
    increase (by less than 10) that neither starts from 0 nor reaches 99.
   */
  predicate IgnoresProgress(current: int, percent: int)
  {
    || percent == current
    || (0 < current < percent < 99 && percent - current < 10)
  }

  /**
    `GProgressEditor::setProgress`: the stored percentage after a request. A
    repaint (`update()`) happens exactly when the result differs from `current`.
   */
  function SetProgress(current: int, percent: int): (next: int)
    ensures next == current <==> IgnoresProgress(current, percent)
    ensures next == percent || next == current
    ensures 0 <= percent - next < 10
    ensures percent >= 99 || percent < current || current <= 0 ==> next == percent
  {
    if percent < 99 && current > 0 && percent > current && percent - current < 10 then current
    else if current == percent then current
    else percent
  }

  /** The stored percentage after a series of requests, one at a time. */
  function FeedProgress(current: int, requests: seq<int>): int
    decreases |requests|
  {
    if requests == [] then current else FeedProgress(SetProgress(current, requests[0]), requests[1..])
  }

  /**
    Whatever the history, the bar never shows more than the latest request and
    lags it by less than 10; a latest request of 99 or more is shown exactly.
   */
  lemma {:induction false} FeedProgressLag(current: int, requests: seq<int>)
    requires requests != []
    ensures var shown := FeedProgress(current, requests);
      var last := requests[|requests| - 1];
      && 0 <= last - shown < 10
      && (last >= 99 ==> shown == last)
    decreases |requests|
  {
    if |requests| > 1 {
      FeedProgressLag(SetProgress(current, requests[0]), requests[1..]);
    }
  }

  // ---------------------------------------------------------- text line item

  /** Qt::ImhNoPredictiveText (Qt 4). */
  const ImhNoPredictiveText: bv32 := 0x20

  /**
    The state of a GTextLineItem that its rules touch: the text, the length limit
    (0 or less means none), the input-method hints, the cursor (position and
    anchor, equal when nothing is selected), and whether `contentsChange` is
    connected to the document.
   */
  datatype TextLine = TextLine(
    text: string,
    maxLength: int,
    hints: bv32,
    position: nat,
    anchor: nat,
    watching: bool)
  {
    predicate Valid()
    {
      && position <= |text| && anchor <= |text|
      && (watching <==> maxLength > 0)
    }

    /** The text respects a positive limit. */
    predicate WithinLimit()
    {
      maxLength > 0 ==> |text| <= maxLength
    }

    predicate HasSelection()
    {
      position != anchor
    }
  }

  function Min(a: int, b: int): int
  {
    if a <= b then a else b
  }

  /** QString::left(n): the first n characters, or all of them. */
  function Left(s: string, n: int): (r: string)
    ensures |r| == if n <= 0 then 0 else Min(|s|, n)
    ensures r == s[..|r|]
  {
    if n <= 0 then [] else if |s| <= n then s else s[..n]
  }

  /** setPlainText: replaces the text; the cursor goes back to the start. */
  function SetPlainText(line: TextLine, text: string): TextLine
  {
    line.(text := text, position := 0, anchor := 0)
  }

  /** The constructor: no limit, predictive text disabled, and `setText("")`. */
  function NewTextLine(): (line: TextLine)
    ensures line.Valid() && line.WithinLimit()
    ensures line.text == [] && line.maxLength == 0
    ensures line.hints & ImhNoPredictiveText == ImhNoPredictiveText
  {
    SetText(TextLine([], 0, ImhNoPredictiveText, 0, 0, false), [])
  }

  /**
    `GTextLineItem::setText`: under a positive limit the stored text is the
    prefix of `text` of length min(|text|, limit); without one it is `text`.
   */
  function SetText(line: TextLine, text: string): (r: TextLine)
    requires line.Valid()
    ensures r.Valid() && r.WithinLimit()
    ensures |r.text| <= |text| && r.text == text[..|r.text|]
    ensures line.maxLength > 0 ==> |r.text| == Min(|text|, line.maxLength)
    ensures line.maxLength <= 0 ==> r.text == text
    ensures r.maxLength == line.maxLength && r.hints == line.hints && r.watching == line.watching
  {
    var newText := if line.maxLength > 0 && |text| > line.maxLength then Left(text, line.maxLength) else text;
    SetPlainText(line, newText)
  }

  /**
    `GTextLineItem::setMaxTextLength`. Going from no limit to a positive one
    truncates the text to the new limit and connects `contentsChange`; going from
    a positive limit to none disconnects it; the limit always becomes `length`.
    Changing one positive limit to another leaves the text alone, even when it is
    now too long.
   */
  function SetMaxTextLength(line: TextLine, length: int): (r: TextLine)
    requires line.Valid()
    ensures r.Valid()
    ensures r.maxLength == length && r.hints == line.hints
    ensures line.maxLength <= 0 && length > 0 ==> r.text == Left(line.text, length) && r.WithinLimit()
    ensures line.maxLength > 0 || length <= 0 ==> r.text == line.text
  {
    if line.maxLength <= 0 && length > 0 then
      var truncated := if |line.text| > length then SetPlainText(line, Left(line.text, length)) else line;
      truncated.(watching := true, maxLength := length)
    else if line.maxLength > 0 && length <= 0 then
      line.(watching := false, maxLength := length)
    else
      line.(maxLength := length)
  }

  /**
    QTextCursor::deletePreviousChar: deletes the selection if there is one, else
    the character before the cursor, if any.
   */
  function DeletePreviousChar(line: TextLine): (r: TextLine)
    requires line.Valid()
    ensures r.Valid()
    ensures !line.HasSelection() && line.position > 0 ==>
              r.text == line.text[..line.position - 1] + line.text[line.position..]
    ensures !line.HasSelection() && line.position == 0 ==> r == line
    ensures line.HasSelection() ==>
              var lo := Min(line.position, line.anchor);
              var hi := if line.position <= line.anchor then line.anchor else line.position;
              r.text == line.text[..lo] + line.text[hi..]
    ensures |r.text| <= |line.text|
    ensures r.maxLength == line.maxLength && r.hints == line.hints
  {
    if line.HasSelection() then
      var lo := Min(line.position, line.anchor);
      var hi := if line.position <= line.anchor then line.anchor else line.position;
      line.(text := line.text[..lo] + line.text[hi..], position := lo, anchor := lo)
    else if line.position > 0 then
      var p := line.position - 1;
      line.(text := line.text[..p] + line.text[p + 1..], position := p, anchor := p)
    else line
  }

  /**
    `GTextLineItem::contentsChange`: when the text exceeds a positive limit, the
    character before the cursor is deleted; otherwise nothing changes.
   */
  function ContentsChange(line: TextLine): (r: TextLine)
    requires line.Valid()
    ensures r.Valid()
    ensures !(line.maxLength > 0 && |line.text| > line.maxLength) ==> r == line
    ensures (line.maxLength > 0 && |line.text| > line.maxLength && !line.HasSelection() && line.position > 0)
              ==> r.text == line.text[..line.position - 1] + line.text[line.position..]
    ensures (line.maxLength > 0 && |line.text| > line.maxLength && line.HasSelection())
              ==> var lo := Min(line.position, line.anchor);
                  var hi := if line.position <= line.anchor then line.anchor else line.position;
                  r.text == line.text[..lo] + line.text[hi..]
    ensures !line.HasSelection() && line.position == 0 ==> r == line
    ensures r.maxLength == line.maxLength && r.hints == line.hints
  {
    if line.maxLength > 0 && |line.text| > line.maxLength then DeletePreviousChar(line) else line
  }

  /** The user types `c`: the selection, if any, is replaced and the cursor follows `c`. */
  function Type(line: TextLine, c: char): (r: TextLine)
    requires line.Valid()
    ensures r.Valid()
    ensures r.maxLength == line.maxLength && r.hints == line.hints
  {
    var lo := Min(line.position, line.anchor);
    var hi := if line.position <= line.anchor then line.anchor else line.position;
    line.(text := line.text[..lo] + [c] + line.text[hi..], position := lo + 1, anchor := lo + 1)
  }

  /**
    Typing into a line already at its limit is undone by `contentsChange`:
    the text is exactly what it was.
   */
  lemma TypingAtLimitIsUndone(line: TextLine, c: char)
    requires line.Valid() && line.maxLength > 0 && |line.text| == line.maxLength
    requires !line.HasSelection()
    ensures ContentsChange(Type(line, c)).text == line.text
  {
  }

  /** Typing one character keeps a line that respects its limit within it. */
  lemma TypingKeepsLimit(line: TextLine, c: char)
    requires line.Valid() && line.WithinLimit()
    ensures ContentsChange(Type(line, c)).WithinLimit()
  {
  }

  /**
    `GTextLineItem::setInputMethodHints`: the stored hints are the requested
    ones with ImhNoPredictiveText added, and no other bit changed.
   */
  function SetInputMethodHints(line: TextLine, hints: bv32): (r: TextLine)
    ensures r.hints & ImhNoPredictiveText == ImhNoPredictiveText
    ensures r.hints & !ImhNoPredictiveText == hints & !ImhNoPredictiveText
    ensures r.(hints := line.hints) == line
  {
    line.(hints := hints | ImhNoPredictiveText)
  }

  /** The operations that reach a GTextLineItem from outside. */
  datatype LineOp =
    | SetTextOp(text: string)
    | SetMaxTextLengthOp(length: int)
    | TypeOp(c: char)
    | SetInputMethodHintsOp(hints: bv32)

  /** One operation; typing is followed by the `contentsChange` it triggers when connected. */
  function Perform(line: TextLine, op: LineOp): (r: TextLine)
    requires line.Valid()
    ensures r.Valid()
  {
    match op
    case SetTextOp(t) => SetText(line, t)
    case SetMaxTextLengthOp(n) => SetMaxTextLength(line, n)
    case TypeOp(c) => var typed := Type(line, c); if typed.watching then ContentsChange(typed) else typed
    case SetInputMethodHintsOp(h) => SetInputMethodHints(line, h)
  }

  function Run(line: TextLine, ops: seq<LineOp>): (r: TextLine)
    requires line.Valid()
    ensures r.Valid()
    decreases |ops|
  {
    if ops == [] then line else Run(Perform(line, ops[0]), ops[1..])
  }

  /**
    Predictive text stays disabled: from construction on, whatever operations
    follow, the stored hints include ImhNoPredictiveText.
   */
  lemma {:induction false} HintsKeepNoPredictiveText(line: TextLine, ops: seq<LineOp>)
    requires line.Valid()
    requires line.hints & ImhNoPredictiveText == ImhNoPredictiveText
    ensures Run(line, ops).hints & ImhNoPredictiveText == ImhNoPredictiveText
    decreases |ops|
  {
    if ops != [] {
      HintsKeepNoPredictiveText(Perform(line, ops[0]), ops[1..]);
    }
  }

  /**
    The limit is kept by every operation except one: lowering a positive limit
    to a smaller positive one. Without such a call, a line within its limit stays
    within it.
   */
  lemma {:induction false} LimitKept(line: TextLine, ops: seq<LineOp>)
    requires line.Valid() && line.WithinLimit()
    requires forall i | 0 <= i < |ops| :: !(ops[i].SetMaxTextLengthOp? && ops[i].length > 0)
                                          || !ShrinksPositiveLimit(ops[..i], line, ops[i].length)
    ensures Run(line, ops).WithinLimit()
    decreases |ops|
  {
    if ops != [] {
      var next := Perform(line, ops[0]);
      assert ops[..0] == [];
      assert Run(line, ops[..0]) == line;
      assert next.WithinLimit();
      forall i | 0 <= i < |ops| - 1
        ensures !(ops[1..][i].SetMaxTextLengthOp? && ops[1..][i].length > 0)
                || !ShrinksPositiveLimit(ops[1..][..i], next, ops[1..][i].length)
      {
        assert ops[1..][i] == ops[i + 1];
        assert ops[..i + 1] == [ops[0]] + ops[1..][..i];
        RunCons(line, ops[0], ops[1..][..i]);
      }
      LimitKept(next, ops[1..]);
    }
  }

  /** Whether, after `prefix`, setting the limit to `length` lowers a positive limit. */
  predicate ShrinksPositiveLimit(prefix: seq<LineOp>, line: TextLine, length: int)
    requires line.Valid()
  {
    var before := Run(line, prefix);
    before.maxLength > 0 && 0 < length < before.maxLength
  }

  lemma RunCons(line: TextLine, op: LineOp, ops: seq<LineOp>)
    requires line.Valid()
    ensures Run(line, [op] + ops) == Run(Perform(line, op), ops)
  {
    assert ([op] + ops)[1..] == ops;
  }

  /** Lowering a positive limit leaves a text that is now too long (the line "abc" with limit 3, then 2). */
  lemma ShrinkingLimitKeepsLongText()
    ensures var line := SetMaxTextLength(SetText(SetMaxTextLength(NewTextLine(), 3), "abc"), 2);
      line.text == "abc" && !line.WithinLimit()
  {
  }

  // ------------------------------------------------------------- key filter

  /** QEvent::KeyPress. */
  const KeyPress: int := 6

  /** Qt key codes the filter tests. */
  const KeySelect: int := 0x01010000
  const KeyReturn: int := 0x01000004
  const KeyEnter: int := 0x01000005
  const KeyUp: int := 0x01000013
  const KeyDown: int := 0x01000015

  /** What the filter did with an event: whether it consumed it and whether it emitted `activated`. */
  datatype FilterResult = FilterResult(consumed: bool, activated: bool)

  /**
    `GLineEditor::eventFilter`: on the editor, key presses of Select, Return or
    Enter emit `activated` and are consumed, Up and Down are consumed silently
    (the editor has one line), and everything else passes through.
   */
  function EventFilter(onEditor: bool, eventType: int, key: int): (r: FilterResult)
    ensures r.activated <==> onEditor && eventType == KeyPress && (key == KeySelect || key == KeyReturn || key == KeyEnter)
    ensures r.consumed <==> onEditor && eventType == KeyPress
                             && (key == KeySelect || key == KeyReturn || key == KeyEnter || key == KeyUp || key == KeyDown)
  {
    if !onEditor then FilterResult(false, false)
    else if eventType != KeyPress then FilterResult(false, false)
    else if key == KeySelect || key == KeyReturn || key == KeyEnter then FilterResult(true, true)
    else if key == KeyDown || key == KeyUp then FilterResult(true, false)
    else FilterResult(false, false)
  }

  // ------------------------------------------------------ focus and tapping

  /** The calls TextEditItem makes on its editor. */
  datatype EditorCall = Unselect | SelectAll | ShiftToLeftEnd

  /** The item's state (`m_justFocusIn`) after an input, and the calls it made. */
  datatype FocusStep = FocusStep(justFocusIn: bool, calls: seq<EditorCall>)

  /**
    `TextEditItem::focusChanged`: gaining focus arms the just-focused flag;
    losing it disarms the flag, unselects and scrolls to the left end.
   */
  function FocusChanged(justFocusIn: bool, focusIn: bool): (r: FocusStep)
    ensures r.justFocusIn <==> focusIn
    ensures focusIn ==> r.calls == []
    ensures !focusIn ==> r.calls == [Unselect, ShiftToLeftEnd]
  {
    if focusIn then FocusStep(true, [])
    else FocusStep(false, [Unselect, ShiftToLeftEnd])
  }

  /**
    `TextEditItem::tapped`: the first tap after focus-in selects everything when
    it hits text and nothing is selected yet; a later tap that misses text
    unselects. Every tap leaves the flag cleared, and makes at most one call.
   */
  function Tapped(justFocusIn: bool, hitText: bool, hasSelection: bool): (r: FocusStep)
    ensures !r.justFocusIn
    ensures |r.calls| <= 1
    ensures SelectAll in r.calls <==> justFocusIn && hitText && !hasSelection
    ensures Unselect in r.calls <==> !justFocusIn && !hitText
    ensures ShiftToLeftEnd !in r.calls
  {
    var calls := if !justFocusIn && !hitText then [Unselect] else [];
    if justFocusIn then
      FocusStep(false, calls + (if hitText && !hasSelection then [SelectAll] else []))
    else FocusStep(false, calls)
  }

  /** An input to the item: a focus change, or a tap (with what the editor reports about it). */
  datatype ItemInput = Focus(focusIn: bool) | Tap(hitText: bool, hasSelection: bool)

  function Step(justFocusIn: bool, input: ItemInput): FocusStep
  {
    match input
    case Focus(f) => FocusChanged(justFocusIn, f)
    case Tap(h, s) => Tapped(justFocusIn, h, s)
  }

  /** The calls made over a series of inputs. */
  function Calls(justFocusIn: bool, inputs: seq<ItemInput>): seq<EditorCall>
    decreases |inputs|
  {
    if inputs == [] then []
    else
      var step := Step(justFocusIn, inputs[0]);
      step.calls + Calls(step.justFocusIn, inputs[1..])
  }

  function CountFocusIns(inputs: seq<ItemInput>): nat
    decreases |inputs|
  {
    if inputs == [] then 0
    else (if inputs[0] == Focus(true) then 1 else 0) + CountFocusIns(inputs[1..])
  }

  function CountCalls(calls: seq<EditorCall>, c: EditorCall): nat
    decreases |calls|
  {
    if calls == [] then 0 else (if calls[0] == c then 1 else 0) + CountCalls(calls[1..], c)
  }

  lemma {:induction false} CountCallsAppend(a: seq<EditorCall>, b: seq<EditorCall>, c: EditorCall)
    ensures CountCalls(a + b, c) == CountCalls(a, c) + CountCalls(b, c)
    decreases |a|
  {
    if a == [] {
      assert a + b == b;
    } else {
      assert (a + b)[1..] == a[1..] + b;
      CountCallsAppend(a[1..], b, c);
    }
  }

  /**
    Select-all happens at most once per focus-in: over any series of inputs, the
    number of SelectAll calls is at most the number of focus-ins, plus one if the
    item started just focused.
   */
  lemma {:induction false} SelectAllOncePerFocusIn(justFocusIn: bool, inputs: seq<ItemInput>)
    ensures CountCalls(Calls(justFocusIn, inputs), SelectAll)
            <= CountFocusIns(inputs) + (if justFocusIn then 1 else 0)
    decreases |inputs|
  {
    if inputs != [] {
      var step := Step(justFocusIn, inputs[0]);
      SelectAllOncePerFocusIn(step.justFocusIn, inputs[1..]);
      CountCallsAppend(step.calls, Calls(step.justFocusIn, inputs[1..]), SelectAll);
      if inputs[0].Tap? {
        assert |step.calls| <= 1;
        assert step.calls == [] || step.calls == [step.calls[0]];
        assert CountCalls(step.calls, SelectAll) <= (if justFocusIn then 1 else 0) by {
          if step.calls != [] {
            assert step.calls[1..] == [];
          }
        }
      } else {
        assert step.calls == [] || step.calls == [Unselect, ShiftToLeftEnd];
        assert CountCalls(step.calls, SelectAll) == 0 by {
          if step.calls != [] {
            assert step.calls[1..] == [ShiftToLeftEnd];
            assert step.calls[1..][1..] == [];
          }
        }
      }
    }
  }
}

=== FILE: wrappers.dfy ===
/** The optional-value type shared by the other modules. */
module Wrappers {

  datatype Option<+T> = None | Some(value: T)
}
